=== FILE: README.md ===
# Arithmetic task pipeline: validation and dispatch, in Dafny

This project models the request-validation and operation-dispatch core of a
small arithmetic HTTP service. A task `{id, operation, left, right}` arrives
as an untyped request body. The pipeline runs in this order:

- `MathRouter.route` guards the request and its use case (500), checks the
  four fields for presence (400), and checks the operation name (400).
- `MathUseCase.calculate` repeats the presence and operation checks. It then
  checks all five injected strategy slots and calls the strategy the
  operation names.
- The five strategies `add`, `sub`, `multiply`, `divide` and `rest` each
  reject a falsy operand and otherwise apply one operator.

The model is functional:

- `Js.JsValue` is a JavaScript value, and `Js.Falsy` is exactly what `!x`
  treats as missing: `undefined`, `null`, `false`, `0` and `""`. An operand of
  `0` is therefore rejected as missing, as in the code.
- `Js.Outcome` (`Ok(v) | Throw(e)`) stands for return-or-throw.
- `MathUseCase.Bundle` holds the five constructor arguments. Each slot is
  either absent or an object that may lack its method. A present method is an
  arbitrary function from two values to a returned value or a thrown error.
  The returned value can be any `Js.JsValue` (`Js.Value.Returned`), and the
  thrown error can be a plain `Error` (`Js.Error.Raised`). So the model covers
  injected stubs as well as the composer's wiring (`MathUseCase.StandardBundle`).
- `MathUseCase.UseCase` keeps the `id`, `left` and `right` fields that
  `calculate` stores before it dispatches. `Calculate` returns the outcome
  together with the state after the call.
- `this[operation]()` is a match on the `Operation` enum.
- JavaScript's `%` truncates toward zero. `Arithmetic.TruncRem` writes it out
  because Dafny's `%` is Euclidean.

Two behaviours of the code are modelled as written:

- **Dependency checks are eager.** `calculate` checks all five slots on
  every call, whatever operation was asked for, and the first unwired slot
  in the order addition, subtraction, multiplication, division, remainder
  decides the error.
- **`route` has no exception handler.** Whatever `calculate` throws escapes
  `route`; nothing converts it into a 500
  (`MathRouter.ExceptionsEscapeRoute`).

The success branch of `route` calls `HttpResponse.ok`, which the helper does
not define (see Findings). `MathRouter.RouteAsWritten` models the code as
written. `MathRouter.Route` returns the 200 envelope the route test expects,
with the calculated object as body; this success envelope is a modelling
choice. Both share `MathRouter.Handle`, which covers every check up to and
including the call of `calculate`.

## Model

| member | source | states |
|---|---|---|
| `Js.FalsyIsExactlyFalsyValues` | src/domain/usecases/addition-usecase.js:5-10 | `!x` holds exactly for undefined, null, false, 0 and "" |
| `Arithmetic.TruncDiv` | src/domain/usecases/remainder-usecase.js:12 | the quotient rounds toward zero: its magnitude is the largest multiple of the divisor's magnitude not above the dividend's, and its sign is the product of the operands' signs |
| `Arithmetic.TruncRem` | src/domain/usecases/remainder-usecase.js:12 | JavaScript `%` on integers: the result takes the dividend's sign (or is 0) and is smaller than the divisor in magnitude |
| `Arithmetic.TruncDivisionIdentity` | src/domain/usecases/remainder-usecase.js:12 | `left == TruncDiv(left, right) * right + TruncRem(left, right)` for every nonzero divisor |
| `Arithmetic.TruncRemVersusEuclidean` | src/domain/usecases/remainder-usecase.js:12 | JavaScript `%` agrees with Dafny's Euclidean `%` on a non-negative dividend and differs by the divisor's magnitude on a negative dividend it does not divide |
| `Strategies.CheckOperands` | src/domain/usecases/addition-usecase.js:5-10 | the shared operand guard: a falsy left reports `left` even when right is falsy too; a truthy left with a falsy right reports `right`; no error exactly when both are truthy |
| `Strategies.Add` | src/domain/usecases/addition-usecase.js:4-13 | throws the guard's error; returns exactly when both operands are truthy; on numbers the result minus right gives back left; other operands go to JavaScript coercion under `+` |
| `Strategies.Sub` | src/domain/usecases/subtraction-usecase.js:4-13 | same guard; on numbers the result plus right gives back left |
| `Strategies.Multiply` | src/domain/usecases/multiplication-usecase.js:4-13 | same guard; on two numbers the result is their product and is never 0 |
| `Strategies.Divide` | src/domain/usecases/division-usecase.js:4-13 | same guard; on two numbers the divisor is never 0 and the result times right is left |
| `Strategies.Rest` | src/domain/usecases/remainder-usecase.js:4-13 | same guard; on two numbers the modulus is never 0 and the result is the truncating remainder |
| `Strategies.RestIsTruncatingRemainder` | src/domain/usecases/remainder-usecase.js:12 | for nonzero integers the remainder is an integer smaller than the divisor in magnitude, follows the dividend's sign, and completes `left == trunc(left / right) * right + result` |
| `Strategies.ProductIsNeverZero` | src/domain/usecases/multiplication-usecase.js:5-12 | a successful multiplication of two numbers had two nonzero factors and yields a nonzero product |
| `Strategies.ZeroOperandIsMissing` | src/domain/usecases/division-usecase.js:5-12 | a numeric operand of 0 is reported as missing by every strategy, so division and remainder never see a numeric zero divisor |
| `Strategies.ZeroStringPassesGuard` | src/domain/usecases/division-usecase.js:5-12 | a truthy string such as `"0"` is not missing: it passes the guard and reaches `/`, `%` and `*`, where the coercion it goes through is kept symbolic |
| `Strategies.NoArgumentsReportsLeft` | src/domain/usecases/addition-usecase.spec.js:16-19 | called with no arguments, every strategy throws the missing `left` error |
| `MathUseCase.IsOperationValid` | src/domain/usecases/math-usecase.js:99-101 | true exactly for a string naming one of the five operations; never throws |
| `MathUseCase.ParseOperation` | src/domain/usecases/math-usecase.js:74 | a value selects an operation exactly when it is valid, and the selected operation's name is that value |
| `MathUseCase.ValidOperationsAreTheNames` | src/domain/usecases/math-usecase.js:5 | the listed names are the five operation names, each selecting its own operation; a non-string is never valid |
| `MathUseCase.FirstUnwired` | src/domain/usecases/math-usecase.js:30-68 | the first slot, in checking order, that is absent or lacks its method; all earlier slots are wired |
| `MathUseCase.DependencyError` | src/domain/usecases/math-usecase.js:30-68 | no error exactly when all five slots are wired; otherwise the error names the first slot, in the order addition, subtraction, multiplication, division, remainder, that is not wired: missing for an absent slot, invalid for one without its method |
| `MathUseCase.EarlierSlotWins` | src/domain/usecases/math-usecase.js:30-68 | an addition slot without its method is reported as invalid even when the remainder slot is missing altogether |
| `MathUseCase.New` | src/domain/usecases/math-usecase.js:4-11 | the constructor stores the five slots and leaves the call fields undefined |
| `MathUseCase.Construct` | src/domain/usecases/math-usecase.js:4 | the constructor throws a TypeError exactly when its argument is missing, since it destructures it; otherwise it builds the use case with the given slots |
| `MathUseCase.FreshUseCaseBehavesLikeAny` | src/domain/usecases/math-usecase.js:4-11 | a freshly built use case gives, call for call, the same outcome as any use case with the same slots |
| `MathUseCase.Dispatch` | src/domain/usecases/math-usecase.js:79-97 | the operation's method calls its slot's strategy on the stored operands; reading it off a slot that is not wired is a TypeError |
| `MathUseCase.FirstFalsy` | src/domain/usecases/math-usecase.js:14-25 | the index of the first falsy field, with every earlier field truthy |
| `MathUseCase.Calculate` | src/domain/usecases/math-usecase.js:13-77 | the first falsy field in the order id, operation, left, right decides the missing-param error; then an unknown operation throws invalid `operation`; then an unwired slot throws its dependency error; none of these store anything; otherwise the operands are stored, the strategy named by `operation` runs on them, and its error propagates unchanged or its value is returned with the input `id` |
| `MathUseCase.UndefinedAdd` | src/domain/usecases/addition-usecase.spec.js:4-10 | the test's `add` stub throws missing `left` exactly when `left` is falsy, and otherwise returns `undefined` |
| `MathUseCase.StubResultsPassThrough` | src/domain/usecases/math-usecase.js:74-76 | whatever the injected strategy gives back reaches the caller unconverted: an `undefined` result comes back as `{id, result: undefined}`, and a plain `Error` escapes unchanged |
| `MathUseCase.PresenceBeatsValidity` | src/domain/usecases/math-usecase.js:20-28 | with a falsy operand and an unknown operation, the error is a missing param, not invalid `operation` |
| `MathUseCase.DependencyChecksAreEager` | src/domain/usecases/math-usecase.js:30-68 | one unwired slot makes every otherwise valid call throw a dependency error, whichever operation it asks for, without storing anything; the error is the first unwired slot's in checking order |
| `MathUseCase.StoredFieldsAreOverwritten` | src/domain/usecases/math-usecase.js:70-72 | the fields an earlier call stored never change a later call's outcome; a later call either leaves them or overwrites them with its own |
| `MathUseCase.StandardWiringComputes` | src/main/composers/tasks-router-composer.js:11-17 | with the composer's wiring, a task with truthy fields and a valid operation never fails and returns its id and the named strategy's result |
| `HttpResponse.BadRequest` | src/presentation/helpers/http-response.js:5-10 | an envelope with status exactly 400 whose body is the missing-param error for the given name, unchanged |
| `HttpResponse.BadRequestInvalid` | src/presentation/helpers/http-response.js:12-17 | an envelope with status exactly 400 whose body is the invalid-param error for the given name, unchanged |
| `HttpResponse.ServerError` | src/presentation/helpers/http-response.js:19-23 | an envelope with status exactly 500 and no body |
| `HttpResponse.BuiltEnvelopesAreErrors` | src/presentation/helpers/http-response.js:4-24 | every envelope the helper builds has status 400 or 500, never 200; a 400 has an error body, from which its builder and parameter name can be recovered |
| `MathRouter.Handle` | src/presentation/routers/math-router.js:9-32 | a failed guard gives 500 before any field is read; then the first falsy field gives 400 missing that field; then an unknown operation gives 400 invalid `operation`; `calculate` is called exactly when all of these pass |
| `MathRouter.RouteAsWritten` | src/presentation/routers/math-router.js:8-35 | as written, `route` never answers 200: a rejected request gets the checks' envelope (500 for a failed guard, then 400 missing for the first falsy field, then 400 invalid for an unknown operation), and it throws exactly when it called `calculate`; a rejected request leaves the use case untouched |
| `MathRouter.Success` | src/main/routes/tasks-routes.test.js:16-19 | the success envelope: status 200 whose body carries the calculated id and result unchanged |
| `MathRouter.Route` | src/presentation/routers/math-router.js:8-35 | rejected requests never reach `calculate` and get the checks' envelope: 500 for a failed guard, then 400 missing for the first falsy field, then 400 invalid for an unknown operation; a 200 carries the request's own id; what `calculate` throws escapes unchanged |
| `MathRouter.RouteAsWrittenDiffersOnlyOnSuccess` | src/presentation/routers/math-router.js:32-34 | the two handlers agree everywhere except where the intended one answers 200; there the written one throws at the missing `ok` helper |
| `MathRouter.RejectionsAgreeWithCalculate` | src/presentation/routers/math-router.js:15-30 | whenever `route` answers 400, `calculate` on the same fields would throw the same error |
| `MathRouter.ComposedRouteAnswersEveryRequest` | src/presentation/routers/math-router.js:9-34 | the composed router, in any state, never throws: 500 exactly for a missing request or body, 400 exactly for a body with a falsy field or an unknown operation, else 200 with the named strategy's result |
| `MathRouter.ExceptionsEscapeRoute` | src/presentation/routers/math-router.js:32 | with the division slot missing, a valid addition request makes `route` throw the dependency error rather than answer 500 |
| `MathRouter.OkHelperIsMissing` | src/presentation/routers/math-router.js:34 | on the route test's task, the written router throws at `HttpResponse.ok`; the intended router answers 200 with the id and the exact product |
| `MathRouter.MissingFieldResponses` | src/presentation/routers/math-router.spec.js:19-30 | a body without `id` answers 400 missing `id`; one without `operation` answers 400 missing `operation` |
| `MathRouter.UnknownOperationResponse` | src/presentation/routers/math-router.js:28-30 | an unknown operation with every field present answers 400 invalid `operation` |
| `MathRouter.AbsentRequestResponses` | src/presentation/routers/math-router.js:9-11 | no request, or a request without a body, answers 500 |
| `MathRouter.MultiplicationResponse` | src/presentation/routers/math-router.js:32-34 | a worked example of the success path: multiplying 2 by 3 answers 200 with the request's id and 6 |

## Left out

- The polling loop in `src/main/index.js` is left out: timers, HTTP calls to the task distributor, and logging are I/O.
- The Express route binding and its adapter are left out as framework glue. The composer is only object construction; it appears as `MathUseCase.StandardBundle` and `MathRouter.Composed`.
- The error classes and their message texts are not part of this model. Errors are `MissingParam(name)`, `InvalidParam(name)`, `TypeError(message)`, and `Raised(message)` for any other error a strategy throws.
- The `ServerError` class and the errors re-export module are left out. Nothing on the response path uses them, and `serverError()` has no body.
- Strategies.Add, Strategies.Sub, Strategies.Multiply, Strategies.Divide, Strategies.Rest: numbers are exact integers with exact real results, not IEEE-754 doubles. So the route test's product is the exact 22320134400920026265583469364565 rather than its double rounding 2.232013440092003e+31. Operands beyond 2^53 would already be rounded when the body is parsed, which changes what `%` returns as well.
- Strategies.Divide: a truthy string that converts to 0 (`"0"`, `" "`, `"0.0"`) passes the guard and still reaches `/` and `%` (giving `Infinity` or `NaN`) and `*` (giving 0). The model keeps this symbolic as `Coerced`, so the never-zero properties hold only for two numeric operands.
- Strategies.Add: JavaScript's implicit coercion of non-number operands (string concatenation for `+`, ToNumber for the others) is kept symbolic as `Coerced(operator, left, right)` and not evaluated. The same holds for the other four strategies.
- `NaN`, `-0`, objects and arrays are not represented, whether as field values or as what a strategy returns. A body that is truthy but not an object is not represented either.
- MathUseCase.New: takes the five slots directly; the destructuring of a missing constructor argument, which throws, is modelled separately by `MathUseCase.Construct`.
- MathRouter.UseCaseRef: an injected use case that has `calculate` and `isOperationValid` is assumed to be a `MathUseCase`. A foreign object with its own versions of those two members is not modelled.
- MathUseCase.Slot: a slot whose method property is truthy but not a function is not distinguished from a missing method.
- The `*.spec.js` stub classes are used as evidence for the expected responses; `MathUseCase.UndefinedAdd` reproduces the addition test's stub as an example injected strategy.

## Findings

| source | as written | input that shows it | evidently intended | confidence | as-written member | corrected member |
|---|---|---|---|---|---|---|
| src/presentation/routers/math-router.js:34 | the success branch returns `HttpResponse.ok(result)`, but the helper defines only `badRequest`, `badRequestInvalid` and `serverError`, so `route` throws a TypeError after `calculate` has run | body `{id: "66df7d3d-8340-4efd-a528-b5204d02a864", operation: "multiplication", left: -3364257091338055, right: -6634491299249283}` | status 200 with `{id, result}` as body, as the route test expects | high; not executed | `MathRouter.RouteAsWritten` (exhibited by `MathRouter.OkHelperIsMissing`) | `MathRouter.Route` (proved by `MathRouter.ComposedRouteAnswersEveryRequest`) |

=== FILE: arithmetic.dfy ===
/**
 Integer arithmetic for JavaScript's `%`. JavaScript truncates the quotient
 toward zero, so the remainder takes the sign of the dividend; Dafny's own
 `/` and `%` are Euclidean (the remainder is never negative), so the
 truncating versions are written out here.
 */
module Arithmetic {

  function Abs(x: int): nat
  {
    if x < 0 then -x else x
  }

  /** The quotient `a / b` rounded toward zero. */
  function TruncDiv(a: int, b: int): (q: int)
    requires b != 0
    ensures Abs(q) * Abs(b) <= Abs(a) < Abs(q) * Abs(b) + Abs(b)
    ensures q != 0 ==> ((q > 0) <==> ((a > 0) == (b > 0)))
  {
    EuclidOfNatural(Abs(a), Abs(b));
    var m := Abs(a) / Abs(b);
    if (a < 0) == (b < 0) then m else -m
  }

  /** JavaScript's `a % b` on integers: the magnitude is `|a| mod |b|` and the
      sign is the sign of `a`. */
  function TruncRem(a: int, b: int): (r: int)
    requires b != 0
    ensures a >= 0 ==> r >= 0
    ensures a <= 0 ==> r <= 0
    ensures Abs(r) < Abs(b)
  {
    var m := Abs(a) % Abs(b);
    if a < 0 then -m else m
  }

  /** The truncating quotient and remainder reassemble the dividend. */
  lemma {:induction false} TruncDivisionIdentity(a: int, b: int)
    requires b != 0
    ensures TruncDiv(a, b) * b + TruncRem(a, b) == a
  {
    var A: int, B: int := Abs(a), Abs(b);
    EuclidOfNatural(A, B);
    var m: int, k: int := A / B, A % B;
    assert A == m * B + k;
    var q := TruncDiv(a, b);
    if a >= 0 && b > 0 {
      assert q * b == m * B;
    } else if a >= 0 {
      assert q == -m && b == -B;
      NegTimesNeg(m, B);
    } else if b > 0 {
      assert q == -m && b == B;
      NegTimes(m, B);
    } else {
      assert q == m && b == -B;
      NegTimes(B, m);
    }
  }

  lemma NegTimesNeg(x: int, y: int)
    ensures (-x) * (-y) == x * y
  {
  }

  lemma NegTimes(x: int, y: int)
    ensures (-x) * y == -(x * y) && y * (-x) == -(x * y)
  {
  }

  /** Euclidean division of a natural number by a positive one. */
  lemma EuclidOfNatural(A: int, B: int)
    requires A >= 0 && B > 0
    ensures A == (A / B) * B + A % B
    ensures 0 <= A % B < B
    ensures A / B >= 0
  {
  }

  /** Where the truncating remainder and Dafny's Euclidean `%` part ways:
      they agree on a non-negative dividend and differ by `|b|` on a negative
      dividend that `b` does not divide. */
  lemma {:induction false} TruncRemVersusEuclidean(a: int, b: int)
    requires b != 0
    ensures a >= 0 ==> TruncRem(a, b) == a % b
    ensures a < 0 && a % b != 0 ==> TruncRem(a, b) == a % b - Abs(b)
    ensures a < 0 && a % b == 0 ==> TruncRem(a, b) == 0
  {
    ModOfAbsDivisor(a, b);
    if a < 0 {
      ModOfNegation(a, Abs(b));
    }
  }

  /** `%` in Dafny depends only on the magnitude of the divisor. */
  lemma {:induction false} ModOfAbsDivisor(a: int, b: int)
    requires b != 0
    ensures a % b == a % Abs(b)
  {
    if b < 0 {
      var q, k := a / b, a % b;
      assert a == q * b + k;
      NegTimes(q, b);
      assert a == (-q) * Abs(b) + k;
      UniqueEuclidean(a, Abs(b), -q, k);
    }
  }

  /** For `a < 0`, the Euclidean remainder of `a` is `B` minus that of `-a`,
      unless `B` divides `a`. */
  lemma {:induction false} ModOfNegation(a: int, B: int)
    requires a < 0 && B > 0
    ensures (-a) % B == 0 <==> a % B == 0
    ensures a % B != 0 ==> a % B == B - (-a) % B
  {
    EuclidOfNatural(-a, B);
    var q, k := (-a) / B, (-a) % B;
    assert -a == q * B + k;
    NegTimes(q, B);
    if k == 0 {
      assert a == (-q) * B + 0;
      UniqueEuclidean(a, B, -q, 0);
    } else {
      assert a == (-q - 1) * B + (B - k) by {
        assert (-q - 1) * B == (-q) * B - B;
      }
      UniqueEuclidean(a, B, -q - 1, B - k);
    }
  }

  /** A quotient/remainder pair with `0 <= k < B` is the Euclidean one. */
  lemma {:induction false} UniqueEuclidean(a: int, B: int, q: int, k: int)
    requires B > 0 && 0 <= k < B && a == q * B + k
    ensures a / B == q && a % B == k
  {
    var q', k' := a / B, a % B;
    assert a == q' * B + k';
    assert 0 <= k' < B;
    var d := q - q';
    assert d * B == k' - k by {
      assert q * B - q' * B == (q - q') * B;
    }
    if d >= 1 {
      AtLeastOnce(d, B);
    } else if d <= -1 {
      AtLeastOnce(-d, B);
      NegTimes(d, B);
    }
  }

  lemma AtLeastOnce(d: int, B: int)
    requires d >= 1 && B > 0
    ensures d * B >= B
  {
    assert d * B == (d - 1) * B + B;
  }
}

=== FILE: http_response.dfy ===
/**
 The response envelopes the router returns, and the three builders of the
 `HttpResponse` helper. The helper has no builder for a 200 response.
 */
module HttpResponse {
  import opened Js

  /** What an envelope carries: nothing, an error object, or an `{id, result}` object. */
  datatype Payload = NoBody | ErrorBody(error: Error) | ResultBody(id: JsValue, result: Value)

  datatype Envelope = Envelope(statusCode: int, body: Payload)

  /** A client error: the request itself is at fault. */
  predicate IsClientError(e: Envelope)
  {
    400 <= e.statusCode < 500
  }

  /** `badRequest(paramName)`: a missing parameter. */
  function BadRequest(paramName: string): (e: Envelope)
    ensures e.statusCode == 400 && IsClientError(e)
    ensures e.body.ErrorBody? && e.body.error.MissingParam?
    ensures e.body.error.param == paramName
  {
    Envelope(400, ErrorBody(MissingParam(paramName)))
  }

  /** `badRequestInvalid(paramName)`: a parameter that is present but not acceptable. */
  function BadRequestInvalid(paramName: string): (e: Envelope)
    ensures e.statusCode == 400 && IsClientError(e)
    ensures e.body.ErrorBody? && e.body.error.InvalidParam?
    ensures e.body.error.param == paramName
  {
    Envelope(400, ErrorBody(InvalidParam(paramName)))
  }

  /** `serverError()`: status 500 and no body at all. */
  function ServerError(): (e: Envelope)
    ensures e.statusCode == 500 && !IsClientError(e)
    ensures e.body.NoBody?
  {
    Envelope(500, NoBody)
  }

  /** The envelopes the helper can build. */
  ghost predicate Built(e: Envelope)
  {
    e == ServerError() || (exists p :: e == BadRequest(p)) || (exists p :: e == BadRequestInvalid(p))
  }

  /** Every envelope the helper builds is an error response: status 400 or
      500, never 200; and the two 400 builders are told apart by their body,
      which gives back the parameter name unchanged. */
  lemma {:induction false} BuiltEnvelopesAreErrors(e: Envelope)
    requires Built(e)
    ensures e.statusCode == 400 || e.statusCode == 500
    ensures e.statusCode != 200
    ensures e.statusCode == 400 <==> e.body.ErrorBody?
    ensures e.body.ErrorBody? && e.body.error.MissingParam? ==> e == BadRequest(e.body.error.param)
    ensures e.body.ErrorBody? && e.body.error.InvalidParam? ==> e == BadRequestInvalid(e.body.error.param)
  {
    if e != ServerError() {
      if exists p :: e == BadRequest(p) {
        var p :| e == BadRequest(p);
      } else {
        var p :| e == BadRequestInvalid(p);
      }
    }
  }
}

=== FILE: js.dfy ===
/**
 JavaScript values as the request pipeline sees them, the errors it throws,
 and a throw-or-return `Outcome` for every operation that can raise.
 */
module Js {

  /** An untyped JavaScript value arriving in a task body. Numbers are the
      integers a task carries; NaN, -0 and objects are not represented here. */
  datatype JsValue = Undefined | Null | Bool(b: bool) | Num(n: int) | Str(s: string)

  /** The values `!x` treats as missing: undefined, null, false, 0 and "". */
  predicate Falsy(v: JsValue)
  {
    match v
    case Undefined => true
    case Null => true
    case Bool(b) => !b
    case Num(n) => n == 0
    case Str(s) => s == ""
  }

  predicate Truthy(v: JsValue)
  {
    !Falsy(v)
  }

  /** The falsy values, listed independently of `Falsy`. */
  const FalsyValues: set<JsValue> := {Undefined, Null, Bool(false), Num(0), Str("")}

  lemma FalsyIsExactlyFalsyValues(v: JsValue)
    ensures Falsy(v) <==> v in FalsyValues
  {
  }

  /** What a strategy returns. Two numbers give the exact mathematical
      result; any other pair of truthy operands goes through JavaScript's
      implicit coercion, which is kept symbolic: the operator and the operands
      it was applied to. An injected strategy may return anything at all
      (a test stub returns `undefined`): that is `Returned(v)`, which holds
      only results the five built-in strategies never produce. A numeric
      result, a stub's included, is written `Number`: `Returned` never
      carries a `Num`. */
  datatype Value =
    | Number(x: real)
    | Coerced(operator: string, left: JsValue, right: JsValue)
    | Returned(v: JsValue)

  /** The errors the pipeline throws: `MissingParamError`, `InvalidParamError`,
      the runtime `TypeError` raised by calling something that is not a
      function, and any other error an injected strategy throws. */
  datatype Error =
    | MissingParam(param: string)
    | InvalidParam(param: string)
    | TypeError(message: string)
    | Raised(message: string)

  /** A call either returns a value or throws an error. */
  datatype Outcome<+T> = Ok(value: T) | Throw(error: Error)

  datatype Option<+T> = None | Some(value: T)
}

=== FILE: math_router.dfy ===
/**
 The request handler (`MathRouter.route`): a guard on the request and the
 use case (500), presence checks on the body (400), the operation-name check
 (400), then `calculate`. There is no exception handler, so whatever
 `calculate` throws escapes `route`.

 The success branch calls `HttpResponse.ok`, which the helper does not
 define: as written, every request that reaches it throws a `TypeError`
 (`RouteAsWritten`). `Route` is the evidently intended handler, answering
 200 with the calculated object as body, the answer the route test expects.
 */
module MathRouter {
  import opened Js
  import opened MathUseCase
  import opened HttpResponse

  /** The fields destructured from the request body; a key the body lacks is `undefined`. */
  datatype Body = Body(id: JsValue, operation: JsValue, left: JsValue, right: JsValue)

  /** An inbound request; `None` for its body is a falsy `httpRequest.body`. */
  datatype HttpRequest = HttpRequest(body: Option<Body>)

  /** The router's use case: absent, or an object that may lack either of
      the two members the router calls. */
  datatype UseCaseRef = NoUseCase | UseCaseRef(hasCalculate: bool, hasIsOperationValid: bool, target: UseCase)

  datatype Router = Router(mathUseCase: UseCaseRef)

  /** The router the composer builds: the use case wired with the five strategies. */
  const Composed: Router := Router(UseCaseRef(true, true, New(StandardBundle)))

  /** The guard of `route`: a request with a body and a use case exposing
      both `calculate` and `isOperationValid`. */
  predicate GuardPasses(router: Router, request: Option<HttpRequest>)
  {
    && request.Some? && request.value.body.Some?
    && router.mathUseCase.UseCaseRef?
    && router.mathUseCase.hasCalculate && router.mathUseCase.hasIsOperationValid
  }

  function BodyFields(b: Body): seq<JsValue>
  {
    Fields(b.id, b.operation, b.left, b.right)
  }

  /** The request passes every check `route` makes before calling `calculate`. */
  predicate Admitted(router: Router, request: Option<HttpRequest>)
  {
    && GuardPasses(router, request)
    && FirstFalsy(BodyFields(request.value.body.value)) == 4
    && IsOperationValid(request.value.body.value.operation)
  }

  /** How far `route` gets before it returns: an envelope built by the helper,
      or the call of `calculate` it makes. */
  datatype Handled = Responded(envelope: Envelope) | Dispatched(call: Call)

  /** The checks of `route` in their order, up to and including the call of
      `calculate`. */
  function Handle(router: Router, request: Option<HttpRequest>): (h: Handled)
    ensures h.Dispatched? <==> Admitted(router, request)
    ensures !GuardPasses(router, request) ==> h == Responded(ServerError())
    ensures GuardPasses(router, request) ==>
      var b := request.value.body.value;
      var i := FirstFalsy(BodyFields(b));
      && (i < 4 ==> h == Responded(BadRequest(FieldNames[i])))
      && (i == 4 && !IsOperationValid(b.operation) ==> h == Responded(BadRequestInvalid("operation")))
    ensures h.Dispatched? ==>
      var b := request.value.body.value;
      h.call == Calculate(router.mathUseCase.target, b.id, b.operation, b.left, b.right)
  {
    if request.None? || request.value.body.None? || router.mathUseCase.NoUseCase?
       || !router.mathUseCase.hasCalculate || !router.mathUseCase.hasIsOperationValid
    then Responded(ServerError())
    else
      var b := request.value.body.value;
      FirstFalsyOfFour(b.id, b.operation, b.left, b.right);
      if Falsy(b.id) then Responded(BadRequest("id"))
      else if Falsy(b.operation) then Responded(BadRequest("operation"))
      else if Falsy(b.left) then Responded(BadRequest("left"))
      else if Falsy(b.right) then Responded(BadRequest("right"))
      else if !IsOperationValid(b.operation) then Responded(BadRequestInvalid("operation"))
      else Dispatched(Calculate(router.mathUseCase.target, b.id, b.operation, b.left, b.right))
  }

  /** The response of one request and the router's state after it (the use
      case keeps the fields `calculate` stored). */
  datatype Routed = Routed(response: Outcome<Envelope>, router: Router)

  /** The router after `calculate` has run on its use case. */
  function WithUseCase(router: Router, uc: UseCase): Router
    requires router.mathUseCase.UseCaseRef?
  {
    router.(mathUseCase := router.mathUseCase.(target := uc))
  }

  /** `route` as written: the success branch calls the missing `HttpResponse.ok`
      and throws. It never returns a 200 envelope; it returns only the
      helper's error envelopes, and it throws exactly when it called `calculate`. */
  function RouteAsWritten(router: Router, request: Option<HttpRequest>): (r: Routed)
    ensures r.response.Ok? ==> r.response.value.statusCode == 400 || r.response.value.statusCode == 500
    ensures r.response.Throw? <==> Admitted(router, request)
    ensures !Admitted(router, request) ==> r.router == router
    // a rejected request gets the envelope the checks chose: 500, then 400 missing, then 400 invalid
    ensures !Admitted(router, request) ==> r.response == Ok(Handle(router, request).envelope)
  {
    match Handle(router, request)
    case Responded(e) => Routed(Ok(e), router)
    case Dispatched(call) =>
      var after := WithUseCase(router, call.after);
      match call.outcome
      case Throw(err) => Routed(Throw(err), after)
      case Ok(_) => Routed(Throw(TypeError("HttpResponse.ok is not a function")), after)
  }

  /** The success envelope the route test expects: status 200 with the
      object `calculate` returned as body. */
  function Success(calculated: Calculated): (e: Envelope)
    ensures e.statusCode == 200 && !IsClientError(e)
    ensures e.body.ResultBody? && e.body.id == calculated.id && e.body.result == calculated.result
  {
    Envelope(200, ResultBody(calculated.id, calculated.result))
  }

  /** `route` with the success branch answering 200. Exceptions from
      `calculate` still escape: there is no handler. */
  function Route(router: Router, request: Option<HttpRequest>): (r: Routed)
    // rejected requests never reach calculate, so the use case is untouched
    ensures !Admitted(router, request) ==> r.router == router && r.response.Ok?
    // and the envelope is the one the checks chose: 500, then 400 missing, then 400 invalid
    ensures !Admitted(router, request) ==> r.response == Ok(Handle(router, request).envelope)
    // a 200 answers the request's own id
    ensures r.response.Ok? && r.response.value.statusCode == 200 ==>
      && Admitted(router, request)
      && r.response.value.body.ResultBody?
      && r.response.value.body.id == request.value.body.value.id
    // what calculate throws comes out unchanged
    ensures Admitted(router, request) ==>
      var b := request.value.body.value;
      var c := Calculate(router.mathUseCase.target, b.id, b.operation, b.left, b.right);
      && (c.outcome.Throw? ==> r.response == Throw(c.outcome.error))
      && (c.outcome.Ok? ==> r.response == Ok(Success(c.outcome.value)))
      && r.router == WithUseCase(router, c.after)
  {
    match Handle(router, request)
    case Responded(e) => Routed(Ok(e), router)
    case Dispatched(call) =>
      var after := WithUseCase(router, call.after);
      match call.outcome
      case Throw(err) => Routed(Throw(err), after)
      case Ok(calculated) => Routed(Ok(Success(calculated)), after)
  }

  /** The two handlers differ only where the written one reaches the missing
      `ok` helper. */
  lemma {:induction false} RouteAsWrittenDiffersOnlyOnSuccess(router: Router, request: Option<HttpRequest>)
    ensures var written, intended := RouteAsWritten(router, request), Route(router, request);
      && written.router == intended.router
      && (intended.response.Ok? && intended.response.value.statusCode == 200 <==> written.response != intended.response)
      && (written.response != intended.response ==> written.response == Throw(TypeError("HttpResponse.ok is not a function")))
  {
    var h := Handle(router, request);
    if h.Responded? {
      BuiltEnvelopesAreErrors(h.envelope);
    }
  }

  /** The router's own rejections agree with `calculate`: whenever `route`
      answers 400 with a missing or invalid parameter, `calculate` on the
      same fields would throw that very error. */
  lemma {:induction false} RejectionsAgreeWithCalculate(router: Router, request: Option<HttpRequest>)
    requires var r := Route(router, request).response;
      r.Ok? && r.value.statusCode == 400
    ensures var b := request.value.body.value;
      Calculate(router.mathUseCase.target, b.id, b.operation, b.left, b.right).outcome
        == Throw(Route(router, request).response.value.body.error)
  {
    var b := request.value.body.value;
    FirstFalsyOfFour(b.id, b.operation, b.left, b.right);
  }

  /** The composed router, in whatever state earlier calls left it, never
      throws: it answers 500 exactly for a missing request or body, 400
      exactly for a body with a falsy field or an unknown operation, and
      otherwise 200 with the named strategy applied to the operands. */
  lemma {:induction false} ComposedRouteAnswersEveryRequest(pending: UseCase, request: Option<HttpRequest>)
    requires pending.deps == StandardBundle
    ensures var router := Router(UseCaseRef(true, true, pending));
      var r := Route(router, request).response;
      && r.Ok?
      && (r.value.statusCode == 500 <==> request.None? || request.value.body.None?)
      && (r.value.statusCode == 400 <==>
            && request.Some? && request.value.body.Some?
            && (FirstFalsy(BodyFields(request.value.body.value)) < 4
                || !IsOperationValid(request.value.body.value.operation)))
      && (Admitted(router, request) ==>
            var b := request.value.body.value;
            var op := ParseOperation(b.operation).value;
            r.value == Success(Calculated(b.id, Strategy(op)(b.left, b.right).value)))
  {
    var router := Router(UseCaseRef(true, true, pending));
    if Admitted(router, request) {
      var b := request.value.body.value;
      FirstFalsyOfFour(b.id, b.operation, b.left, b.right);
      var op := ParseOperation(b.operation).value;
      assert Strategy(op)(b.left, b.right).Ok? by {
        match op
        case Addition =>
        case Subtraction =>
        case Multiplication =>
        case Division =>
        case Remainder =>
      }
    }
  }

  /** Exceptions escape: with a use case whose division slot is missing, a
      valid addition request makes `route` throw the dependency error
      instead of answering 500. */
  lemma ExceptionsEscapeRoute(id: string)
    requires id != ""
    ensures var deps := StandardBundle.(division := Absent);
      var router := Router(UseCaseRef(true, true, New(deps)));
      var request := Some(HttpRequest(Some(Body(Str(id), Str("addition"), Num(1), Num(2)))));
      Route(router, request).response == Throw(MissingParam("divisionUseCase"))
  {
    var b := Body(Str(id), Str("addition"), Num(1), Num(2));
    FirstFalsyOfFour(b.id, b.operation, b.left, b.right);
    assert IsOperationValid(b.operation) by {
      ValidOperationsAreTheNames(Addition, b.operation);
    }
  }

  /** The route test's task, as written: the composed router computes the
      product and then throws at `HttpResponse.ok`, where the test expects
      200 with the id and the product. */
  lemma OkHelperIsMissing()
    ensures var request := Some(HttpRequest(Some(Body(
        Str("66df7d3d-8340-4efd-a528-b5204d02a864"), Str("multiplication"),
        Num(-3364257091338055), Num(-6634491299249283)))));
      && RouteAsWritten(Composed, request).response == Throw(TypeError("HttpResponse.ok is not a function"))
      && Route(Composed, request).response == Ok(Envelope(200, ResultBody(
           Str("66df7d3d-8340-4efd-a528-b5204d02a864"), Number(22320134400920026265583469364565.0))))
  {
    ComposedRouteAnswersEveryRequest(New(StandardBundle), Some(HttpRequest(Some(Body(
        Str("66df7d3d-8340-4efd-a528-b5204d02a864"), Str("multiplication"),
        Num(-3364257091338055), Num(-6634491299249283))))));
  }

  /** A body without `id`, or without `operation`, answers 400 naming it. */
  lemma MissingFieldResponses(left: JsValue, right: JsValue)
    ensures Route(Composed, Some(HttpRequest(Some(Body(Undefined, Str("multiplication"), left, right))))).response
      == Ok(BadRequest("id"))
    ensures Route(Composed, Some(HttpRequest(Some(Body(Str("x"), Undefined, left, right))))).response
      == Ok(BadRequest("operation"))
  {
    FirstFalsyOfFour(Undefined, Str("multiplication"), left, right);
    FirstFalsyOfFour(Str("x"), Undefined, left, right);
  }

  /** An unknown operation with every field present answers 400 invalid. */
  lemma UnknownOperationResponse(left: JsValue, right: JsValue)
    requires Truthy(left) && Truthy(right)
    ensures Route(Composed, Some(HttpRequest(Some(Body(Str("x"), Str("power"), left, right))))).response
      == Ok(BadRequestInvalid("operation"))
  {
    FirstFalsyOfFour(Str("x"), Str("power"), left, right);
  }

  /** No request, or a request without a body, answers 500. */
  lemma AbsentRequestResponses()
    ensures Route(Composed, None).response == Ok(ServerError())
    ensures Route(Composed, Some(HttpRequest(None))).response == Ok(ServerError())
  {
  }

  /** A worked example of the success path: the composed router answers a
      multiplication of 2 by 3 with 200, the request's id and 6. */
  lemma MultiplicationResponse()
    ensures Route(Composed, Some(HttpRequest(Some(Body(Str("valid_id"), Str("multiplication"), Num(2), Num(3)))))).response
      == Ok(Success(Calculated(Str("valid_id"), Number(6.0))))
  {
    ComposedRouteAnswersEveryRequest(New(StandardBundle),
      Some(HttpRequest(Some(Body(Str("valid_id"), Str("multiplication"), Num(2), Num(3))))));
  }
}

=== FILE: math_usecase.dfy ===
/**
 The operation dispatcher (`MathUseCase`): presence checks on the four task
 fields, the operation-name membership test, eager checks of all five
 injected strategy slots, then dispatch to the strategy the operation names.
 */
module MathUseCase {
  import opened Js
  import Strategies

  datatype Operation = Addition | Subtraction | Multiplication | Division | Remainder

  /** The operation names a task may carry, in the order the use case lists them. */
  const ValidOperations: seq<string> := ["addition", "subtraction", "multiplication", "division", "remainder"]

  /** The operations in the order of `ValidOperations`. */
  const Operations: seq<Operation> := [Addition, Subtraction, Multiplication, Division, Remainder]

  /** The name of the use-case method `this[operation]()` reaches. */
  function Name(op: Operation): string
  {
    match op
    case Addition => "addition"
    case Subtraction => "subtraction"
    case Multiplication => "multiplication"
    case Division => "division"
    case Remainder => "remainder"
  }

  /** `isOperationValid`: membership of the value in the list of names. A
      value that is not a string is never a member; nothing here throws. */
  function IsOperationValid(operation: JsValue): (valid: bool)
    ensures valid <==> exists op: Operation :: operation == Str(Name(op))
  {
    assert forall i | 0 <= i < |ValidOperations| :: ValidOperations[i] == Name(Operations[i]);
    operation.Str? && operation.s in ValidOperations
  }

  /** The operation a valid name selects. */
  function ParseOperation(operation: JsValue): (r: Option<Operation>)
    ensures r.Some? <==> IsOperationValid(operation)
    ensures r.Some? ==> operation == Str(Name(r.value))
  {
    match operation
    case Str("addition") => Some(Addition)
    case Str("subtraction") => Some(Subtraction)
    case Str("multiplication") => Some(Multiplication)
    case Str("division") => Some(Division)
    case Str("remainder") => Some(Remainder)
    case _ => None
  }

  /** A strategy as the use case calls it: two operands in, a value or a throw out. */
  type StrategyFn = (JsValue, JsValue) -> Outcome<Value>

  /** One injected dependency. `Absent` is a falsy constructor argument;
      `Present(None)` is an object without the expected method. */
  datatype Slot = Absent | Present(member: Option<StrategyFn>)

  predicate Wired(s: Slot)
  {
    s.Present? && s.member.Some?
  }

  /** The constructor's five strategy arguments. */
  datatype Bundle = Bundle(addition: Slot, subtraction: Slot, multiplication: Slot, division: Slot, remainder: Slot)

  function SlotOf(deps: Bundle, op: Operation): Slot
  {
    match op
    case Addition => deps.addition
    case Subtraction => deps.subtraction
    case Multiplication => deps.multiplication
    case Division => deps.division
    case Remainder => deps.remainder
  }

  /** The constructor argument name of each slot, used in dependency errors. */
  function SlotName(op: Operation): string
  {
    match op
    case Addition => "additionUseCase"
    case Subtraction => "subtractionUseCase"
    case Multiplication => "multiplicationUseCase"
    case Division => "divisionUseCase"
    case Remainder => "remainderUseCase"
  }

  /** The method each slot must expose. */
  function MethodName(op: Operation): string
  {
    match op
    case Addition => "add"
    case Subtraction => "sub"
    case Multiplication => "multiply"
    case Division => "divide"
    case Remainder => "rest"
  }

  /** The order in which `calculate` inspects the slots. */
  const SlotOrder: seq<Operation> := [Addition, Subtraction, Multiplication, Division, Remainder]

  /** Every slot holds an object with its method: what the composer builds. */
  predicate WellWired(deps: Bundle)
  {
    && Wired(deps.addition) && Wired(deps.subtraction) && Wired(deps.multiplication)
    && Wired(deps.division) && Wired(deps.remainder)
  }

  /** The index of the first slot in `order` that is not wired, or `|order|`. */
  function FirstUnwired(deps: Bundle, order: seq<Operation>): (i: nat)
    ensures i <= |order|
    ensures forall j | 0 <= j < i :: Wired(SlotOf(deps, order[j]))
    ensures i < |order| ==> !Wired(SlotOf(deps, order[i]))
  {
    if |order| == 0 then 0
    else if !Wired(SlotOf(deps, order[0])) then 0
    else 1 + FirstUnwired(deps, order[1..])
  }

  /** The error a slot that is not wired raises. */
  function SlotError(op: Operation, s: Slot): Error
  {
    if s.Absent? then MissingParam(SlotName(op)) else InvalidParam(SlotName(op))
  }

  /** The eager dependency check: the first slot, in `SlotOrder`, that is not
      wired decides the error; whatever operation was asked for, all five are
      inspected. */
  function DependencyError(deps: Bundle): (e: Option<Error>)
    ensures e.None? <==> WellWired(deps)
    ensures e.Some? ==> exists k | 0 <= k < |SlotOrder| ::
      && e.value == SlotError(SlotOrder[k], SlotOf(deps, SlotOrder[k]))
      && !Wired(SlotOf(deps, SlotOrder[k]))
      && forall j | 0 <= j < k :: Wired(SlotOf(deps, SlotOrder[j]))
  {
    var i := FirstUnwired(deps, SlotOrder);
    if i < |SlotOrder| then Some(SlotError(SlotOrder[i], SlotOf(deps, SlotOrder[i])))
    else
      assert Wired(SlotOf(deps, SlotOrder[0])) && Wired(SlotOf(deps, SlotOrder[1]))
        && Wired(SlotOf(deps, SlotOrder[2])) && Wired(SlotOf(deps, SlotOrder[3]))
        && Wired(SlotOf(deps, SlotOrder[4]));
      None
  }

  /** The use-case object: its injected slots and the `id`, `left` and `right`
      fields `calculate` stores before it dispatches (undefined until then). */
  datatype UseCase = UseCase(deps: Bundle, id: JsValue, left: JsValue, right: JsValue)

  /** The constructor: stores the five slots and nothing else. */
  function New(deps: Bundle): (uc: UseCase)
    ensures uc.deps == deps
    ensures uc.id == Undefined && uc.left == Undefined && uc.right == Undefined
  {
    UseCase(deps, Undefined, Undefined, Undefined)
  }

  /** `new MathUseCase(args)`: the constructor destructures its argument, so
      a missing argument (`None`: `undefined` or `null`) is a `TypeError`
      before any slot is stored. A key the argument lacks is an `Absent` slot. */
  function Construct(args: Option<Bundle>): (r: Outcome<UseCase>)
    ensures args.None? <==> r.Throw?
    ensures r.Throw? ==> r.error.TypeError?
    ensures args.Some? ==> r.Ok? && r.value.deps == args.value && r.value == New(args.value)
  {
    match args
    case None => Throw(TypeError("Cannot destructure the constructor argument as it is undefined"))
    case Some(deps) => Ok(New(deps))
  }

  /** A freshly built use case behaves, call for call, like any use case with
      the same slots: the stored fields it starts without never matter. */
  lemma {:induction false} FreshUseCaseBehavesLikeAny(uc: UseCase, id: JsValue, operation: JsValue, left: JsValue, right: JsValue)
    ensures Calculate(New(uc.deps), id, operation, left, right).outcome == Calculate(uc, id, operation, left, right).outcome
  {
    FirstFalsyOfFour(id, operation, left, right);
  }

  /** `addition()` ... `remainder()`: call the slot's method on the stored
      operands. Reading the method off a missing slot is a `TypeError`. */
  function Dispatch(uc: UseCase, op: Operation): (r: Outcome<Value>)
    ensures Wired(SlotOf(uc.deps, op)) ==> r == SlotOf(uc.deps, op).member.value(uc.left, uc.right)
    ensures !Wired(SlotOf(uc.deps, op)) ==> r.Throw? && r.error.TypeError?
  {
    match SlotOf(uc.deps, op)
    case Absent => Throw(TypeError("Cannot read properties of undefined (reading '" + MethodName(op) + "')"))
    case Present(None) => Throw(TypeError("this." + SlotName(op) + "." + MethodName(op) + " is not a function"))
    case Present(Some(f)) => f(uc.left, uc.right)
  }

  /** The object `calculate` returns. */
  datatype Calculated = Calculated(id: JsValue, result: Value)

  /** The outcome of one call together with the use case's state after it. */
  datatype Call = Call(outcome: Outcome<Calculated>, after: UseCase)

  /** The task fields in the order they are checked. */
  function Fields(id: JsValue, operation: JsValue, left: JsValue, right: JsValue): seq<JsValue>
  {
    [id, operation, left, right]
  }

  const FieldNames: seq<string> := ["id", "operation", "left", "right"]

  /** The index of the first falsy value in `fields`, or `|fields|`. */
  function FirstFalsy(fields: seq<JsValue>): (i: nat)
    ensures i <= |fields|
    ensures forall j | 0 <= j < i :: Truthy(fields[j])
    ensures i < |fields| ==> Falsy(fields[i])
  {
    if |fields| == 0 then 0
    else if Falsy(fields[0]) then 0
    else 1 + FirstFalsy(fields[1..])
  }

  /** `calculate(id, operation, left, right)`. */
  function Calculate(uc: UseCase, id: JsValue, operation: JsValue, left: JsValue, right: JsValue): (c: Call)
    // the first falsy field decides, and nothing is stored
    ensures var i := FirstFalsy(Fields(id, operation, left, right));
      i < 4 ==> c == Call(Throw(MissingParam(FieldNames[i])), uc)
    // presence passed: an unknown operation is rejected
    ensures FirstFalsy(Fields(id, operation, left, right)) == 4 && !IsOperationValid(operation) ==>
      c == Call(Throw(InvalidParam("operation")), uc)
    // operation valid: the dependency check decides next
    ensures FirstFalsy(Fields(id, operation, left, right)) == 4 && IsOperationValid(operation) && !WellWired(uc.deps) ==>
      c == Call(Throw(DependencyError(uc.deps).value), uc)
    // everything passed: the operands are stored and the named strategy's outcome is passed on unchanged
    ensures FirstFalsy(Fields(id, operation, left, right)) == 4 && IsOperationValid(operation) && WellWired(uc.deps) ==>
      && c.after == uc.(id := id, left := left, right := right)
      && var r := SlotOf(uc.deps, ParseOperation(operation).value).member.value(left, right);
      && (r.Throw? ==> c.outcome == Throw(r.error))
      && (r.Ok? ==> c.outcome == Ok(Calculated(id, r.value)))
  {
    FirstFalsyOfFour(id, operation, left, right);
    if Falsy(id) then Call(Throw(MissingParam("id")), uc)
    else if Falsy(operation) then Call(Throw(MissingParam("operation")), uc)
    else if Falsy(left) then Call(Throw(MissingParam("left")), uc)
    else if Falsy(right) then Call(Throw(MissingParam("right")), uc)
    else if !IsOperationValid(operation) then Call(Throw(InvalidParam("operation")), uc)
    else match DependencyError(uc.deps)
      case Some(e) => Call(Throw(e), uc)
      case None =>
        var stored := uc.(id := id, left := left, right := right);
        match Dispatch(stored, ParseOperation(operation).value)
        case Throw(e) => Call(Throw(e), stored)
        case Ok(result) => Call(Ok(Calculated(id, result)), stored)
  }

  lemma FirstFalsyOfFour(a: JsValue, b: JsValue, c: JsValue, d: JsValue)
    ensures FirstFalsy(Fields(a, b, c, d)) ==
      if Falsy(a) then 0 else if Falsy(b) then 1 else if Falsy(c) then 2 else if Falsy(d) then 3 else 4
  {
    var s := Fields(a, b, c, d);
    assert s[1..] == [b, c, d];
    assert [b, c, d][1..] == [c, d];
    assert [c, d][1..] == [d];
    assert [d][1..] == [];
    assert FirstFalsy([d]) == if Falsy(d) then 0 else 1;
    assert FirstFalsy([c, d]) == if Falsy(c) then 0 else 1 + FirstFalsy([d]);
    assert FirstFalsy([b, c, d]) == if Falsy(b) then 0 else 1 + FirstFalsy([c, d]);
    assert FirstFalsy(s) == if Falsy(a) then 0 else 1 + FirstFalsy([b, c, d]);
  }

  /** The wiring the composer builds: each slot holds its own strategy. */
  function Strategy(op: Operation): StrategyFn
  {
    match op
    case Addition => Strategies.Add
    case Subtraction => Strategies.Sub
    case Multiplication => Strategies.Multiply
    case Division => Strategies.Divide
    case Remainder => Strategies.Rest
  }

  const StandardBundle: Bundle := Bundle(
    Present(Some(Strategy(Addition))), Present(Some(Strategy(Subtraction))),
    Present(Some(Strategy(Multiplication))), Present(Some(Strategy(Division))),
    Present(Some(Strategy(Remainder))))

  /** The names the membership test accepts are exactly the five operation
      names, each selecting its own operation. */
  lemma {:induction false} ValidOperationsAreTheNames(op: Operation, v: JsValue)
    ensures IsOperationValid(Str(Name(op)))
    ensures ParseOperation(Str(Name(op))) == Some(op)
    ensures IsOperationValid(v) ==> v.Str? && v.s in ValidOperations
    ensures !v.Str? ==> !IsOperationValid(v)
  {
  }

  /** Presence beats validity: a falsy operand is reported as missing even
      when the operation is unknown too. */
  lemma PresenceBeatsValidity(uc: UseCase, id: JsValue, operation: JsValue, left: JsValue, right: JsValue)
    requires Truthy(id) && Truthy(operation) && !IsOperationValid(operation)
    requires Falsy(left) || Falsy(right)
    ensures Calculate(uc, id, operation, left, right).outcome.error.MissingParam?
  {
    FirstFalsyOfFour(id, operation, left, right);
  }

  /** The dependency checks are eager and ordered: one slot that is not wired
      makes every call that passes validation throw, whichever operation it
      asks for and even when that operation's own slot is wired; the error
      names the first unwired slot in the order addition, subtraction,
      multiplication, division, remainder. */
  lemma {:induction false} DependencyChecksAreEager(uc: UseCase, id: JsValue, operation: JsValue, left: JsValue, right: JsValue, broken: Operation)
    requires Truthy(id) && Truthy(left) && Truthy(right) && IsOperationValid(operation)
    requires !Wired(SlotOf(uc.deps, broken))
    ensures var c := Calculate(uc, id, operation, left, right);
      && c.after == uc
      && c.outcome.Throw?
      && exists k | 0 <= k < |SlotOrder| ::
        && c.outcome.error == SlotError(SlotOrder[k], SlotOf(uc.deps, SlotOrder[k]))
        && !Wired(SlotOf(uc.deps, SlotOrder[k]))
        && forall j | 0 <= j < k :: Wired(SlotOf(uc.deps, SlotOrder[j]))
  {
    FirstFalsyOfFour(id, operation, left, right);
    match broken
    case Addition =>
    case Subtraction =>
    case Multiplication =>
    case Division =>
    case Remainder =>
  }

  /** An earlier slot wins: an addition slot without its method is reported
      even when the remainder slot is missing altogether. */
  lemma {:induction false} EarlierSlotWins(f: StrategyFn, g: StrategyFn, h: StrategyFn)
    ensures DependencyError(Bundle(Present(None), Present(Some(f)), Present(Some(g)), Present(Some(h)), Absent))
      == Some(InvalidParam("additionUseCase"))
  {
    var deps := Bundle(Present(None), Present(Some(f)), Present(Some(g)), Present(Some(h)), Absent);
    var e := DependencyError(deps);
    var k :| 0 <= k < |SlotOrder| && e.value == SlotError(SlotOrder[k], SlotOf(deps, SlotOrder[k]))
      && !Wired(SlotOf(deps, SlotOrder[k])) && forall j | 0 <= j < k :: Wired(SlotOf(deps, SlotOrder[j]));
    assert k == 0 by {
      assert !Wired(SlotOf(deps, SlotOrder[0]));
    }
  }

  /** Only this call's operands matter: the fields stored by earlier calls
      never influence the outcome, and a call that reaches dispatch
      overwrites them with its own. */
  lemma {:induction false} StoredFieldsAreOverwritten(uc: UseCase, a: JsValue, b: JsValue, c: JsValue, d: JsValue,
                                                        id: JsValue, operation: JsValue, left: JsValue, right: JsValue)
    ensures var first := Calculate(uc, a, b, c, d);
      var second := Calculate(first.after, id, operation, left, right);
      && first.after.deps == uc.deps
      && second.outcome == Calculate(uc, id, operation, left, right).outcome
      && (second.after == first.after || second.after == uc.(id := id, left := left, right := right))
  {
    FirstFalsyOfFour(a, b, c, d);
    FirstFalsyOfFour(id, operation, left, right);
  }

  /** With the composer's wiring, a task whose fields are all truthy and whose
      operation is one of the five never fails: `calculate` returns the input
      `id` and the named strategy applied to the operands. */
  lemma {:induction false} StandardWiringComputes(id: JsValue, op: Operation, left: JsValue, right: JsValue)
    requires Truthy(id) && Truthy(left) && Truthy(right)
    ensures WellWired(StandardBundle)
    ensures var c := Calculate(New(StandardBundle), id, Str(Name(op)), left, right);
      && Strategy(op)(left, right).Ok?
      && c.outcome == Ok(Calculated(id, Strategy(op)(left, right).value))
  {
    FirstFalsyOfFour(id, Str(Name(op)), left, right);
    ValidOperationsAreTheNames(op, Str(Name(op)));
  }

  /** The `add` stub of the addition strategy's own test: it throws for a
      falsy `left` and otherwise returns `undefined`. */
  function UndefinedAdd(left: JsValue, right: JsValue): (r: Outcome<Value>)
    ensures r.Throw? <==> Falsy(left)
    ensures r.Throw? ==> r.error == MissingParam("left")
    ensures r.Ok? ==> r.value == Returned(Undefined)
  {
    if Falsy(left) then Throw(MissingParam("left")) else Ok(Returned(Undefined))
  }

  /** A stub strategy that always throws a plain `Error`. */
  function FailingStrategy(left: JsValue, right: JsValue): (r: Outcome<Value>)
    ensures r.Throw? && r.error.Raised?
  {
    Throw(Raised("strategy failed"))
  }

  /** `calculate` neither inspects nor converts what an injected strategy
      gives back: an `undefined` result is returned as `{id, result: undefined}`,
      and a plain `Error` escapes unchanged. */
  lemma {:induction false} StubResultsPassThrough(deps: Bundle, id: JsValue, left: JsValue, right: JsValue)
    requires WellWired(deps)
    requires Truthy(id) && Truthy(left) && Truthy(right)
    ensures Calculate(New(deps.(addition := Present(Some(UndefinedAdd)))), id, Str("addition"), left, right).outcome
      == Ok(Calculated(id, Returned(Undefined)))
    ensures Calculate(New(deps.(division := Present(Some(FailingStrategy)))), id, Str("division"), left, right).outcome
      == Throw(Raised("strategy failed"))
  {
    FirstFalsyOfFour(id, Str("addition"), left, right);
    FirstFalsyOfFour(id, Str("division"), left, right);
    ValidOperationsAreTheNames(Addition, Str("addition"));
    ValidOperationsAreTheNames(Division, Str("division"));
  }
}

=== FILE: strategies.dfy ===
/**
 The five operation strategies (`add`, `sub`, `multiply`, `divide`, `rest`).
 Each one rejects a falsy `left`, then a falsy `right`, with a missing-param
 error, and otherwise applies one binary operator to its operands.
 */
module Strategies {
  import opened Js
  import opened Arithmetic

  /** The guard every strategy starts with: `left` is checked before `right`,
      and a falsy operand (0 included) is reported as missing. */
  function CheckOperands(left: JsValue, right: JsValue): (e: Option<Error>)
    ensures e.None? <==> Truthy(left) && Truthy(right)
    ensures Falsy(left) ==> e == Some(MissingParam("left"))
    ensures Truthy(left) && Falsy(right) ==> e == Some(MissingParam("right"))
  {
    if Falsy(left) then Some(MissingParam("left"))
    else if Falsy(right) then Some(MissingParam("right"))
    else None
  }

  /** The throw-or-return shape every strategy shares: it throws exactly the
      guard's error, and returns a value exactly when both operands are truthy. */
  ghost predicate Guarded(left: JsValue, right: JsValue, r: Outcome<Value>)
  {
    && (Falsy(left) ==> r == Throw(MissingParam("left")))
    && (Truthy(left) && Falsy(right) ==> r == Throw(MissingParam("right")))
    && (r.Ok? <==> Truthy(left) && Truthy(right))
  }

  /** Both operands are numbers: the operator is applied without coercion. */
  predicate Numeric(left: JsValue, right: JsValue)
  {
    left.Num? && right.Num?
  }

  function Add(left: JsValue, right: JsValue): (r: Outcome<Value>)
    ensures Guarded(left, right, r)
    ensures r.Ok? && Numeric(left, right) ==>
      r.value.Number? && r.value.x - right.n as real == left.n as real
    ensures r.Ok? && !Numeric(left, right) ==> r.value == Coerced("+", left, right)
  {
    match CheckOperands(left, right)
    case Some(e) => Throw(e)
    case None =>
      if Numeric(left, right) then Ok(Number((left.n + right.n) as real))
      else Ok(Coerced("+", left, right))
  }

  function Sub(left: JsValue, right: JsValue): (r: Outcome<Value>)
    ensures Guarded(left, right, r)
    ensures r.Ok? && Numeric(left, right) ==>
      r.value.Number? && r.value.x + right.n as real == left.n as real
    ensures r.Ok? && !Numeric(left, right) ==> r.value == Coerced("-", left, right)
  {
    match CheckOperands(left, right)
    case Some(e) => Throw(e)
    case None =>
      if Numeric(left, right) then Ok(Number((left.n - right.n) as real))
      else Ok(Coerced("-", left, right))
  }

  function Multiply(left: JsValue, right: JsValue): (r: Outcome<Value>)
    ensures Guarded(left, right, r)
    ensures r.Ok? && Numeric(left, right) ==>
      r.value == Number((left.n * right.n) as real) && r.value.x != 0.0
    ensures r.Ok? && !Numeric(left, right) ==> r.value == Coerced("*", left, right)
  {
    match CheckOperands(left, right)
    case Some(e) => Throw(e)
    case None =>
      if Numeric(left, right) then Ok(Number((left.n * right.n) as real))
      else Ok(Coerced("*", left, right))
  }

  /** The guard runs before the division, so a numeric divisor is never 0. */
  function Divide(left: JsValue, right: JsValue): (r: Outcome<Value>)
    ensures Guarded(left, right, r)
    ensures r.Ok? && Numeric(left, right) ==>
      right.n != 0 && r.value.Number? && r.value.x * right.n as real == left.n as real
    ensures r.Ok? && !Numeric(left, right) ==> r.value == Coerced("/", left, right)
  {
    match CheckOperands(left, right)
    case Some(e) => Throw(e)
    case None =>
      if Numeric(left, right) then Ok(Number(left.n as real / right.n as real))
      else Ok(Coerced("/", left, right))
  }

  /** JavaScript `%`: the remainder of the quotient truncated toward zero. */
  function Rest(left: JsValue, right: JsValue): (r: Outcome<Value>)
    ensures Guarded(left, right, r)
    ensures r.Ok? && Numeric(left, right) ==>
      right.n != 0 && r.value == Number(TruncRem(left.n, right.n) as real)
    ensures r.Ok? && !Numeric(left, right) ==> r.value == Coerced("%", left, right)
  {
    match CheckOperands(left, right)
    case Some(e) => Throw(e)
    case None =>
      if Numeric(left, right) then Ok(Number(TruncRem(left.n, right.n) as real))
      else Ok(Coerced("%", left, right))
  }

  /** The remainder of two truthy integers is smaller than the divisor in
      magnitude, takes the sign of the dividend (or is 0), and completes the
      truncating division `left == TruncDiv(left, right) * right + result`. */
  lemma {:induction false} RestIsTruncatingRemainder(a: int, b: int)
    requires a != 0 && b != 0
    ensures Rest(Num(a), Num(b)).Ok?
    ensures var x := Rest(Num(a), Num(b)).value.x;
      && x.Floor as real == x
      && Abs(x.Floor) < Abs(b)
      && (a > 0 ==> x >= 0.0) && (a < 0 ==> x <= 0.0)
      && a == TruncDiv(a, b) * b + x.Floor
  {
    TruncDivisionIdentity(a, b);
  }

  /** Multiplication of two numbers never yields 0: both factors passed the truthiness guard. */
  lemma ProductIsNeverZero(a: int, b: int)
    requires Multiply(Num(a), Num(b)).Ok?
    ensures a != 0 && b != 0 && Multiply(Num(a), Num(b)).value.x != 0.0
  {
  }

  /** A numeric operand of 0 is rejected as missing by every strategy. */
  lemma ZeroOperandIsMissing(x: JsValue)
    ensures Add(Num(0), x) == Throw(MissingParam("left"))
    ensures Sub(Num(0), x) == Throw(MissingParam("left"))
    ensures Multiply(Num(0), x) == Throw(MissingParam("left"))
    ensures Divide(Num(0), x) == Throw(MissingParam("left"))
    ensures Rest(Num(0), x) == Throw(MissingParam("left"))
    ensures Truthy(x) ==> Divide(x, Num(0)) == Throw(MissingParam("right"))
    ensures Truthy(x) ==> Rest(x, Num(0)) == Throw(MissingParam("right"))
  {
  }

  /** The guard tests truthiness, not numeric value: the string "0" is
      truthy, so it is not missing and reaches the operator, where JavaScript
      would coerce it to 0. */
  lemma ZeroStringPassesGuard(x: JsValue)
    requires Truthy(x)
    ensures Divide(x, Str("0")) == Ok(Coerced("/", x, Str("0")))
    ensures Rest(x, Str("0")) == Ok(Coerced("%", x, Str("0")))
    ensures Multiply(Str("0"), x) == Ok(Coerced("*", Str("0"), x))
  {
  }

  /** Called with no arguments, both operands are `undefined`, and `left`
      is the one reported. */
  lemma NoArgumentsReportsLeft()
    ensures Add(Undefined, Undefined) == Throw(MissingParam("left"))
    ensures Sub(Undefined, Undefined) == Throw(MissingParam("left"))
    ensures Multiply(Undefined, Undefined) == Throw(MissingParam("left"))
    ensures Divide(Undefined, Undefined) == Throw(MissingParam("left"))
    ensures Rest(Undefined, Undefined) == Throw(MissingParam("left"))
  {
  }
}
